=== FILE: README.md ===
# Chat server and client: a Dafny model

This project models the core of a small line-based Java chat system. It
covers the server's `ChatServer.Handler` and the protocol side of the Swing
`ChatClient`, and proves properties of both programs and of the way they
talk to each other.

**Server (`server.dfy`, module `Server`).** One `ChatServer` object holds:

- the static `names` set and the `clientWriters` map;
- every connection's PrintWriter output (`wire`: per connection, every line printed so far);
- the state of every Handler thread (`handlers`: its `name` field and whether it is negotiating, active or closed).

Each Handler step is one method call:

- a name line is read while negotiating (`SubmitName`);
- a command line is read after admission (`Dispatch`);
- the input ends or fails, and the `finally` cleanup runs (`Cleanup`).

`Run` chains these steps over a sequence of `readLine` results.

The invariant `Valid()` states:

- `names` is exactly the key set of `clientWriters`;
- every registered writer belongs to an admitted Handler whose `name` is the key.

It follows that no two names share a writer.

**Client (`client.dfy`, module `Client`).** A `ChatClient` object holds:

- the online-user list model;
- the message area;
- the lines sent to the server;
- the text field and whether it is editable.

`ReceiveLine` is one pass of the read loop in `run`. `SendMessage` is `sendMessage`.

**Java library behaviour (`java_lib.dfy`, module `JavaLib`).**

- `String.split(",")` is modelled exactly, including that trailing empty fields are dropped and that a string without a comma splits to itself.
- Also modelled: `String.join`, `indexOf` and `trim`.
- A `HashSet` iteration order is modelled as a nondeterministic enumeration.

**Both sides (`round_trip.dfy`, module `RoundTrip`).** These lemmas check that what the client prints is what the server parses, and that what the server prints is what the client's read loop expects.

**Concrete scenarios (`scenarios.dfy`, module `Scenarios`).** These methods drive the server object through concrete sessions and check outcomes from the method contracts alone:

- a second client asking for a taken name;
- a private message to a partly online list;
- a departure followed by a re-join;
- the stale-name eviction described below.

**Behaviour worth noting, all of it modelled as the code has it:**

- A candidate name is accepted whenever it is not already in `names`; the empty string is a name like any other.
- On admission, the server sends NAMEACCEPTED to the new client, then a `USERLIST` line to every registered client, the newcomer included.
- On departure, the remaining clients get `MESSAGE Server: <name> has left the chat.` and a fresh `USERLIST`.
- The server prints no `USERJOINED` or `USERLEFT` line. The client's read loop handles both all the same.
- On a bare `USERLIST` line the client empties its user list before the `substring` call throws and ends `run`.
- The Handler's `name` field is assigned before the uniqueness check. So if the connection fails after a refused candidate, cleanup removes that candidate from `names` and `clientWriters`, even when it belongs to another client. The model keeps this behaviour; `Scenarios.StaleNameEvictsOwner` shows it.
- A PRIVATE payload with nothing before its first space (`PRIVATE  hi`) is routed to the recipient named by the empty string. It is not dropped.

## Model

| member | source | states |
|---|---|---|
| JavaLib.IndexOf | src/chatserver/ChatServer.java:192-193 | `indexOf` is -1 exactly when the character is absent; otherwise it is the position of its first occurrence |
| JavaLib.Fields | src/chatserver/ChatServer.java:198 | cutting at every comma yields at least one field and only comma-free fields |
| JavaLib.DropTrailingEmpty | src/chatserver/ChatServer.java:198 | `split` keeps a prefix of the fields, drops only empty ones, and never ends on an empty field |
| JavaLib.SplitOfJoin | src/chatserver/ChatServer.java:198 | splitting a comma-joined list of comma-free parts gives the parts back, unless the list has several parts and the last is empty |
| JavaLib.SplitOfJoinDropsTrailingEmpty | src/chatserver/ChatClient.java:187 | a trailing empty part is lost by `split` |
| JavaLib.JoinAvoids | src/chatserver/ChatClient.java:119 | joining with commas introduces no character other than the comma |
| JavaLib.JoinIsEmpty | src/chatserver/ChatClient.java:119-120 | the joined selection is empty exactly when nothing, or only one empty name, is selected |
| JavaLib.Trim | src/chatserver/ChatClient.java:112 | the trimmed text is empty exactly when the text is all characters up to U+0020, and otherwise starts and ends above U+0020 |
| JavaLib.TrimInfix | src/chatserver/ChatClient.java:112 | the trimmed text is a piece of the text with only such characters before and after it |
| JavaLib.Enumerate | src/chatserver/ChatServer.java:173 | iterating over `names` yields each name exactly once |
| JavaLib.Join | src/chatserver/ChatClient.java:119 | `String.join(",", ...)`: no parts give the empty string, one part gives itself, and otherwise the first part is followed by a comma |
| JavaLib.Split | src/chatserver/ChatServer.java:198 | `split(",")`: a comma-free string splits to itself; otherwise the comma-separated fields in order, with only trailing empty ones dropped and no empty field left at the end |
| Server.ParseCommand | src/chatserver/ChatServer.java:155-159 | a line is a BROADCAST exactly when it starts with `BROADCAST `, a PRIVATE exactly when it does not but starts with `PRIVATE `, and the payload is the rest of the line |
| Server.SplitAtFirstSpace | src/chatserver/ChatServer.java:192-196 | there is no cut exactly when the payload has no space; otherwise the recipients part is space-free and the payload is recipients, one space, message |
| Server.SplitAtFirstSpaceOf | src/chatserver/ChatServer.java:192-196 | a space-free head followed by a space and any tail is cut into exactly that head and tail |
| Server.ParsePrivate | src/chatserver/ChatServer.java:192-198 | a PRIVATE payload has no recipients exactly when it has no space; otherwise it is a space-free head, one space and the message, and the recipients are the head split on commas |
| Server.DeliverEachCounts | src/chatserver/ChatServer.java:199-206 | the recipient loop gives each writer one copy of the line for every recipient entry that resolves to it, and nothing else |
| Server.HitsOfRegistered | src/chatserver/ChatServer.java:200-202 | with one writer per name, a registered name's writer is hit once for each time the name is listed |
| Server.HitsOfUnregistered | src/chatserver/ChatServer.java:201-202 | a writer that no name maps to is never hit |
| Server.DeliverEachByName | src/chatserver/ChatServer.java:199-206 | a registered recipient gets one copy per listing; every unregistered writer is untouched |
| Server.DeliverExtends | src/chatserver/ChatServer.java:175-177 | printing to a set of writers only appends: no output is lost and no connection appears |
| Server.OwnedWritersAreInjective | src/chatserver/ChatServer.java:120-125 | when every registered writer belongs to the active Handler of its name, no two names share a writer |
| Server.ChatServer.constructor | src/chatserver/ChatServer.java:44-51 | the server starts with no names, no writers and no connections |
| Server.ChatServer.Connect | src/chatserver/ChatServer.java:62-66 | an accepted connection gets a fresh writer, and its Handler starts negotiating with SUBMITNAME printed; the registry is unchanged |
| Server.ChatServer.PrintlnAll | src/chatserver/ChatServer.java:175-177 | every writer in `clientWriters.values()` gets the line once, whatever the iteration order; the others get nothing |
| Server.ChatServer.BroadcastMessage | src/chatserver/ChatServer.java:182-188 | every registered client, the sender included, gets `MESSAGE <sender>: <message>` |
| Server.ChatServer.BroadcastUserList | src/chatserver/ChatServer.java:172-179 | every registered client gets `USERLIST` followed by all names, each once, in one iteration order |
| Server.ChatServer.PrintlnEach | src/chatserver/ChatServer.java:199-206 | the recipient loop prints to the writer of each registered recipient, in list order, and skips unknown names |
| Server.ChatServer.HandlePrivateMessage | src/chatserver/ChatServer.java:191-207 | without a space nothing is sent; otherwise each registered recipient gets one private line per listing, and every other writer is untouched |
| Server.ChatServer.Admit | src/chatserver/ChatServer.java:113-125 | the candidate becomes `name`; it is registered with this Handler's writer exactly when it is not yet in `names`; otherwise nothing else changes |
| Server.ChatServer.SubmitName | src/chatserver/ChatServer.java:111-136 | a free name is registered, acknowledged with NAMEACCEPTED and announced by a USERLIST to all; a taken one gets another SUBMITNAME and changes no registry entry |
| Server.ChatServer.Welcome | src/chatserver/ChatServer.java:133-136 | the new client gets NAMEACCEPTED, then every registered client gets the USERLIST |
| Server.ChatServer.Dispatch | src/chatserver/ChatServer.java:146-159 | BROADCAST lines are broadcast under the Handler's name, PRIVATE lines are routed, and anything else prints nothing |
| Server.ChatServer.EndDuringNegotiation | src/chatserver/ChatServer.java:113-116 | a null line while negotiating sets `name` to null |
| Server.ChatServer.Cleanup | src/chatserver/ChatServer.java:210-224 | the Handler closes and its writer is no longer registered; with a null name nothing else changes; otherwise the name is removed from both collections and the rest get the departure message and a fresh USERLIST |
| Server.ChatServer.Farewell | src/chatserver/ChatServer.java:220-223 | the remaining clients get `MESSAGE Server: <name> has left the chat.` and then the USERLIST of the names left |
| Server.ChatServer.Receive | src/chatserver/ChatServer.java:101-168 | one `readLine` result keeps the invariant and only appends output; the Handler closes exactly when the input is not a line; an admitted Handler keeps its name, and its command lines leave the registry alone |
| Server.ChatServer.Run | src/chatserver/ChatServer.java:101-168 | the Handler reads lines until the first null or I/O error and then closes, or is still open after reading every line; output is append-only and other Handlers are untouched |
| Client.Classify | src/chatserver/ChatClient.java:176-196 | a line that starts with a keyword, and is long enough for its `substring`, is handled as that keyword with the text after the keyword and one separator character as its payload (split on commas for USERLIST); a handled line starts with its keyword; a line starting with no keyword is ignored |
| Client.KeywordsExclusive | src/chatserver/ChatClient.java:176-196 | no server line starts with two of the six keywords, so the order of the prefix tests does not change how a line is handled |
| Client.TruncatedExactlyOnBareKeywords | src/chatserver/ChatClient.java:183-196 | `run` throws on a server line exactly when it is a bare `MESSAGE`, `USERLIST`, `USERJOINED` or `USERLEFT`, and only the bare `USERLIST` has cleared the list first |
| Client.Added | src/chatserver/ChatClient.java:133-137 | `addUser` leaves a listed user alone and otherwise appends it at the end, keeping the other entries in order, so the list stays free of duplicates |
| Client.AddedIdempotent | src/chatserver/ChatClient.java:133-137 | adding the same user twice is the same as adding it once |
| Client.RemoveFirst | src/chatserver/ChatClient.java:140-142 | `removeElement` drops one occurrence of the user and nothing else |
| Client.RemoveFirstOfNoDup | src/chatserver/ChatClient.java:140-142 | on a duplicate-free list, removing the user removes it entirely and keeps the order of the others |
| Client.Distinct | src/chatserver/ChatClient.java:186-190 | clearing the list and adding every USERLIST entry gives a duplicate-free list of exactly those entries, in the order of their first occurrence |
| Client.DistinctOfNoDup | src/chatserver/ChatClient.java:186-190 | a USERLIST without repeated names is shown exactly as sent |
| Client.OutgoingLine | src/chatserver/ChatClient.java:111-126 | nothing is sent exactly when the trimmed text is empty, or when Broadcast is off and the joined selection is empty |
| Client.NothingSelectedSendsNothing | src/chatserver/ChatClient.java:119-125 | with Broadcast off and no user selected, nothing is sent |
| Client.ChatClient.constructor | src/chatserver/ChatClient.java:91-92 | the client starts with an empty list and message area, nothing sent, and a text field that is not editable |
| Client.ChatClient.AddUser | src/chatserver/ChatClient.java:133-137 | the list becomes `Added` of the old list and stays duplicate-free |
| Client.ChatClient.RemoveUser | src/chatserver/ChatClient.java:140-142 | the user's only entry is removed and the other entries keep their order |
| Client.ChatClient.EditText | src/chatserver/ChatClient.java:181 | the text field can be typed into only once it is editable |
| Client.ChatClient.SendMessage | src/chatserver/ChatClient.java:111-130 | the outgoing line, if any, is printed and the field cleared; otherwise the field keeps its text; before NAMEACCEPTED nothing is ever sent |
| Client.ChatClient.RefillUsers | src/chatserver/ChatClient.java:186-190 | the list is cleared and refilled by `addUser` with each USERLIST entry in turn |
| Client.ChatClient.ReceiveLine | src/chatserver/ChatClient.java:174-197 | each kind of server line has its own effect (on SUBMITNAME the dialog's answer is sent, and a cancelled dialog sends `null`); the pass fails on a null line or a bare keyword, changing nothing except that a bare `USERLIST` leaves the list empty |
| RoundTrip.BroadcastRoundTrip | src/chatserver/ChatClient.java:114-116 | the client's BROADCAST line is parsed by the server as a broadcast of exactly the trimmed text |
| RoundTrip.PrivateRoundTrip | src/chatserver/ChatClient.java:119-121 | with well-formed selected names, the client's PRIVATE line is parsed by the server into exactly those recipients, in order, and the trimmed text |
| RoundTrip.ParsePrivateOfJoin | src/chatserver/ChatServer.java:192-198 | a comma-joined list of well-formed names, a space and any message are read back as those names and that message |
| RoundTrip.SpaceInNameMisroutes | src/chatserver/ChatServer.java:192-198 | a comma-free recipient name containing a space is cut at its first space: the first word becomes the only recipient, and the rest joins the message |
| RoundTrip.MessageRoundTrip | src/chatserver/ChatClient.java:183-184 | a broadcast delivery appears in the message area as `<sender>: <text>` |
| RoundTrip.PrivateMessageRoundTrip | src/chatserver/ChatServer.java:203 | a private delivery appears in the message area as `(Private) <sender>: <text>` |
| RoundTrip.PromptsRoundTrip | src/chatserver/ChatClient.java:176-179 | SUBMITNAME and NAMEACCEPTED are recognised as the two prompts |
| RoundTrip.UserListClassified | src/chatserver/ChatServer.java:173 | a USERLIST line of non-empty, comma-free names is read by the client as exactly that list |
| RoundTrip.UserListRoundTrip | src/chatserver/ChatClient.java:185-190 | after a USERLIST built from the registered names, the client's list holds exactly those names, in the order sent |

## Left out

- The listening socket, port 9001 and the accept loop are left out; `Connect` stands for one accepted connection. Stream setup and `socket.close()` in cleanup have no state in the model.
- Threads and `synchronized` blocks are left out. Each Handler step is one atomic method call, and steps of different Handlers interleave only between calls. Races inside a step are not modelled. Examples: `clientWriters.put` under the `names` lock (`src/chatserver/ChatServer.java:120-123`) racing an iteration that holds the `clientWriters` lock; the unlocked read of `names` when the USERLIST line is built (`src/chatserver/ChatServer.java:173`); and the window in cleanup between removing the name from `names` and removing its writer (`src/chatserver/ChatServer.java:213-217`).
- `System.out.println` of an `IOException`, and the server's start-up message, are console output and are left out.
- Character streams: a line is a Dafny `string`. The model does not separate UTF-16 code units from code points, and it does not model line terminators or encodings.
- Swing widgets are left out: the frame and its title, the Send button, the scroll panes, `requestFocus`, and the warning dialog shown when nothing is selected.
  - The Broadcast checkbox and the selected names are parameters of `SendMessage`.
  - The name dialog's answer is a parameter of `ReceiveLine`; a cancelled dialog (null) prints `null`.
  - The server-address dialog and the client's socket are left out.
- An `IOException` inside the client's `readLine` is left out. Like a null line, it would end `run`.
- The client's static `selectedNames` set is never used by the code and is left out.
- `Server.ChatServer.Receive` and `Server.ChatServer.Run` state only the facts a whole session needs: the invariant, append-only output, the handler frame, when the Handler closes, and when the registry is left alone. The complete new state of each branch is stated by `SubmitName`, `Dispatch` and `Cleanup`.

=== FILE: client.dfy ===
/**
 * The chat client's protocol bookkeeping (ChatClient): the online-user list
 * model, the message area, the lines it sends to the server, and how each line
 * from the server is handled. Swing widgets are reduced to the state they hold.
 */
module Client {
  import opened Wrappers
  import opened JavaLib

  /** What the client's read loop makes of one line from the server. */
  datatype ServerLine =
    | SubmitName
    | NameAccepted
    | Message(text: string)
    | UserList(users: seq<string>)
    | UserJoined(user: string)
    | UserLeft(user: string)
    | Unrecognized
      /**
       * The prefix matched but the line ends before the `substring` index: the
       * exception ends `run`. `clearsList` says whether the branch emptied the
       * user list before it threw, as the USERLIST branch does.
       */
    | Truncated(clearsList: bool)

  /**
   * The prefix tests of the read loop, in their order, with the `substring`
   * each branch takes: the first keyword that starts the line decides, and each
   * payload is what follows the keyword and one separator character.
   */
  function Classify(line: string): (r: ServerLine)
    ensures StartsWith(line, "SUBMITNAME") ==> r == SubmitName
    ensures StartsWith(line, "NAMEACCEPTED") ==> r == NameAccepted
    ensures StartsWith(line, "MESSAGE") && |line| >= 8 ==> r == Message(line[8..])
    ensures StartsWith(line, "USERLIST") && |line| >= 9 ==> r == UserList(Split(line[9..]))
    ensures StartsWith(line, "USERJOINED") && |line| >= 11 ==> r == UserJoined(line[11..])
    ensures StartsWith(line, "USERLEFT") && |line| >= 9 ==> r == UserLeft(line[9..])
    ensures r.Message? ==> StartsWith(line, "MESSAGE") && |line| >= 8 && r.text == line[8..]
    ensures r.UserList? ==> StartsWith(line, "USERLIST") && |line| >= 9 && r.users == Split(line[9..])
    ensures r.UserJoined? ==> StartsWith(line, "USERJOINED") && |line| >= 11 && r.user == line[11..]
    ensures r.UserLeft? ==> StartsWith(line, "USERLEFT") && |line| >= 9 && r.user == line[9..]
    ensures r == Unrecognized <==>
      !StartsWith(line, "SUBMITNAME") && !StartsWith(line, "NAMEACCEPTED") && !StartsWith(line, "MESSAGE")
      && !StartsWith(line, "USERLIST") && !StartsWith(line, "USERJOINED") && !StartsWith(line, "USERLEFT")
  {
    KeywordsExclusive(line);
    if StartsWith(line, "SUBMITNAME") then SubmitName
    else if StartsWith(line, "NAMEACCEPTED") then NameAccepted
    else if StartsWith(line, "MESSAGE") then
      if |line| < 8 then Truncated(false) else Message(line[8..])
    else if StartsWith(line, "USERLIST") then
      if |line| < 9 then Truncated(true) else UserList(Split(line[9..]))
    else if StartsWith(line, "USERJOINED") then
      if |line| < 11 then Truncated(false) else UserJoined(line[11..])
    else if StartsWith(line, "USERLEFT") then
      if |line| < 9 then Truncated(false) else UserLeft(line[9..])
    else Unrecognized
  }

  /**
   * The client dies exactly on a bare MESSAGE, USERLIST, USERJOINED or USERLEFT
   * line, and only the bare USERLIST has emptied the user list first.
   */
  lemma TruncatedExactlyOnBareKeywords(line: string)
    ensures Classify(line).Truncated? <==>
      line == "MESSAGE" || line == "USERLIST" || line == "USERJOINED" || line == "USERLEFT"
    ensures Classify(line) == Truncated(true) <==> line == "USERLIST"
  {
    if line == "MESSAGE" {
      DiffersAt(line, "SUBMITNAME", 0);
      DiffersAt(line, "NAMEACCEPTED", 0);
    } else if line == "USERLIST" || line == "USERJOINED" || line == "USERLEFT" {
      DiffersAt(line, "SUBMITNAME", 0);
      DiffersAt(line, "NAMEACCEPTED", 0);
      DiffersAt(line, "MESSAGE", 0);
      if line == "USERJOINED" {
        DiffersAt(line, "USERLIST", 4);
      } else if line == "USERLEFT" {
        DiffersAt(line, "USERLIST", 5);
        DiffersAt(line, "USERJOINED", 4);
      }
    }
    if Classify(line).Truncated? {
      if StartsWith(line, "MESSAGE") {
        assert line == line[..7];
      } else if StartsWith(line, "USERLIST") {
        assert line == line[..8];
      } else if StartsWith(line, "USERJOINED") {
        assert line == line[..10];
      } else {
        assert line == line[..8];
      }
    }
  }

  /** No line starts with two of the six keywords of the read loop. */
  lemma KeywordsExclusive(line: string)
    ensures StartsWith(line, "NAMEACCEPTED") ==> !StartsWith(line, "SUBMITNAME")
    ensures StartsWith(line, "MESSAGE") ==> !StartsWith(line, "SUBMITNAME") && !StartsWith(line, "NAMEACCEPTED")
    ensures StartsWith(line, "USERLIST") || StartsWith(line, "USERJOINED") || StartsWith(line, "USERLEFT") ==>
      !StartsWith(line, "SUBMITNAME") && !StartsWith(line, "NAMEACCEPTED") && !StartsWith(line, "MESSAGE")
    ensures StartsWith(line, "USERJOINED") ==> !StartsWith(line, "USERLIST")
    ensures StartsWith(line, "USERLEFT") ==> !StartsWith(line, "USERLIST") && !StartsWith(line, "USERJOINED")
  {
    if StartsWith(line, "NAMEACCEPTED") {
      PrefixAt(line, "NAMEACCEPTED", 0);
      DiffersAt(line, "SUBMITNAME", 0);
    }
    if StartsWith(line, "MESSAGE") {
      PrefixAt(line, "MESSAGE", 0);
      DiffersAt(line, "SUBMITNAME", 0);
      DiffersAt(line, "NAMEACCEPTED", 0);
    }
    if StartsWith(line, "USERLIST") || StartsWith(line, "USERJOINED") || StartsWith(line, "USERLEFT") {
      var p := if StartsWith(line, "USERLIST") then "USERLIST"
        else if StartsWith(line, "USERJOINED") then "USERJOINED" else "USERLEFT";
      PrefixAt(line, p, 0);
      DiffersAt(line, "SUBMITNAME", 0);
      DiffersAt(line, "NAMEACCEPTED", 0);
      DiffersAt(line, "MESSAGE", 0);
    }
    if StartsWith(line, "USERJOINED") {
      PrefixAt(line, "USERJOINED", 4);
      DiffersAt(line, "USERLIST", 4);
    }
    if StartsWith(line, "USERLEFT") {
      PrefixAt(line, "USERLEFT", 4);
      PrefixAt(line, "USERLEFT", 5);
      DiffersAt(line, "USERLIST", 5);
      DiffersAt(line, "USERJOINED", 4);
    }
  }

  /** `println(s)` of a String that may be null prints "null". */
  function Printed(s: Option<string>): string {
    match s
    case None => "null"
    case Some(t) => t
  }

  /** The list after `addUser(user)`: appended only when absent. */
  function Added(list: seq<string>, user: string): (r: seq<string>)
    ensures user in r
    ensures forall x :: x in r <==> x in list || x == user
    ensures NoDup(list) ==> NoDup(r)
    ensures user in list ==> r == list
    ensures user !in list ==> r == list + [user]
  {
    if user in list then list else list + [user]
  }

  /** Adding a user twice is adding it once. */
  lemma AddedIdempotent(list: seq<string>, user: string)
    ensures Added(Added(list, user), user) == Added(list, user)
  {
  }

  /** The list after `removeElement(user)`: the first occurrence is dropped. */
  function RemoveFirst(list: seq<string>, user: string): (r: seq<string>)
    ensures user !in list ==> r == list
    ensures user in list ==> |r| == |list| - 1
    ensures multiset(r) == multiset(list) - multiset{user}
  {
    if list == [] then []
    else if list[0] == user then
      assert list == [list[0]] + list[1..];
      list[1..]
    else
      var rest := RemoveFirst(list[1..], user);
      assert list == [list[0]] + list[1..];
      [list[0]] + rest
  }

  /** The entries of `list` other than `user`, in their order. */
  function Without(list: seq<string>, user: string): (r: seq<string>)
    ensures forall x :: x in r <==> x in list && x != user
  {
    if list == [] then []
    else if list[0] == user then Without(list[1..], user)
    else [list[0]] + Without(list[1..], user)
  }

  /** On a duplicate-free list, removing the first occurrence removes the user and keeps the others in order. */
  lemma {:induction false} RemoveFirstOfNoDup(list: seq<string>, user: string)
    requires NoDup(list)
    ensures RemoveFirst(list, user) == Without(list, user)
    ensures user !in RemoveFirst(list, user)
    ensures NoDup(RemoveFirst(list, user))
  {
    if list != [] {
      var rest := list[1..];
      assert NoDup(rest);
      RemoveFirstOfNoDup(rest, user);
      if list[0] == user {
        WithoutAbsent(rest, user);
      } else {
        var r := RemoveFirst(rest, user);
        assert RemoveFirst(list, user) == [list[0]] + r;
        assert list[0] !in rest;
        assert list[0] !in r;
        NoDupCons(list[0], r);
      }
    }
  }

  lemma NoDupCons(x: string, r: seq<string>)
    requires NoDup(r) && x !in r
    ensures NoDup([x] + r)
  {
    var s := [x] + r;
    forall i, j | 0 <= i < j < |s|
      ensures s[i] != s[j]
    {
      assert s[j] == r[j - 1];
      if i > 0 {
        assert s[i] == r[i - 1];
      }
    }
  }

  lemma {:induction false} WithoutAbsent(list: seq<string>, user: string)
    requires user !in list
    ensures Without(list, user) == list
  {
    if list != [] {
      WithoutAbsent(list[1..], user);
      assert list == [list[0]] + list[1..];
    }
  }

  /** The position of the first `x` in `list`, or `|list|` when there is none. */
  function FirstIndex(list: seq<string>, x: string): (k: nat)
    ensures k <= |list| && (k < |list| <==> x in list)
    ensures k < |list| ==> list[k] == x
    ensures x !in list[..k]
  {
    if list == [] then 0
    else if list[0] == x then 0
    else
      var k := FirstIndex(list[1..], x);
      assert list[..k + 1] == [list[0]] + list[1..][..k];
      k + 1
  }

  /** Appending an entry moves no earlier first occurrence; a new entry is first found at the end. */
  lemma {:induction false} FirstIndexAppend(list: seq<string>, y: string, x: string)
    ensures x in list ==> FirstIndex(list + [y], x) == FirstIndex(list, x)
    ensures x !in list && x == y ==> FirstIndex(list + [y], x) == |list|
  {
    if list != [] && list[0] != x {
      assert (list + [y])[1..] == list[1..] + [y];
      FirstIndexAppend(list[1..], y, x);
    }
  }

  /** The entries of `r` appear in `r` in the order of their first occurrence in `users`. */
  predicate InFirstOccurrenceOrder(r: seq<string>, users: seq<string>) {
    forall i, j :: 0 <= i < j < |r| ==> FirstIndex(users, r[i]) < FirstIndex(users, r[j])
  }

  /**
   * The list after clearing it and calling `addUser` on each entry in turn:
   * the distinct entries in order of first occurrence.
   */
  function Distinct(users: seq<string>): (r: seq<string>)
    ensures NoDup(r)
    ensures forall x :: x in r <==> x in users
    ensures InFirstOccurrenceOrder(r, users)
  {
    if users == [] then []
    else
      var init, y := users[..|users| - 1], users[|users| - 1];
      assert users == init + [y];
      DistinctStep(init, y, Distinct(init));
      Added(Distinct(init), y)
  }

  /** One `addUser` call keeps the list in order of first occurrence. */
  lemma DistinctStep(init: seq<string>, y: string, d: seq<string>)
    requires forall x :: x in d <==> x in init
    requires InFirstOccurrenceOrder(d, init)
    ensures InFirstOccurrenceOrder(Added(d, y), init + [y])
  {
    var r := Added(d, y);
    forall i, j | 0 <= i < j < |r|
      ensures FirstIndex(init + [y], r[i]) < FirstIndex(init + [y], r[j])
    {
      assert r[i] == d[i];
      FirstIndexAppend(init, y, r[i]);
      FirstIndexAppend(init, y, r[j]);
      if j == |d| {
        assert r[j] == y && y !in init;
      } else {
        assert r[j] == d[j];
      }
    }
  }

  /** A duplicate-free list is refilled as it was. */
  lemma {:induction false} DistinctOfNoDup(users: seq<string>)
    requires NoDup(users)
    ensures Distinct(users) == users
  {
    if users != [] {
      var init := users[..|users| - 1];
      assert NoDup(init);
      DistinctOfNoDup(init);
      assert users[|users| - 1] !in init;
      assert init + [users[|users| - 1]] == users;
    }
  }

  /**
   * The line `sendMessage` prints for the text field's contents, the
   * Broadcast checkbox and the selected users; None when it prints nothing.
   */
  function OutgoingLine(text: string, broadcast: bool, selected: seq<string>): (r: Option<string>)
    ensures r.None? <==> Trim(text) == "" || (!broadcast && Join(selected) == "")
  {
    var message := Trim(text);
    if message == "" then None
    else if broadcast then Some("BROADCAST " + message)
    else
      var users := Join(selected);
      if users == "" then None else Some("PRIVATE " + users + " " + message)
  }

  /** With no user selected, or only an empty name, nothing is sent unless Broadcast is checked. */
  lemma NothingSelectedSendsNothing(text: string, selected: seq<string>)
    requires selected == [] || selected == [""]
    ensures OutgoingLine(text, false, selected).None?
  {
    JoinIsEmpty(selected);
  }

  class ChatClient {
    /** The entries of the online-user JList. */
    var listModel: seq<string>
    /** The text of the message area. */
    var messageArea: string
    /** Every line printed to the server, oldest first. */
    var sent: seq<string>
    /** The contents of the text field. */
    var textField: string
    /** Whether the text field is editable (set once NAMEACCEPTED arrives). */
    var canSend: bool

    /** The user list never holds a name twice; the text field stays empty until it is editable. */
    ghost predicate Valid()
      reads this
    {
      NoDup(listModel) && (!canSend ==> textField == "")
    }

    constructor ()
      ensures Valid()
      ensures listModel == [] && messageArea == "" && sent == [] && textField == "" && !canSend
    {
      listModel := [];
      messageArea := "";
      sent := [];
      textField := "";
      canSend := false;
    }

    /** `addUser`: the user is appended unless it is already listed. */
    method AddUser(user: string)
      requires Valid()
      modifies this`listModel
      ensures Valid()
      ensures listModel == Added(old(listModel), user)
    {
      if user !in listModel {
        listModel := listModel + [user];
      }
    }

    /** `removeUser`: the user's first (on a valid list, only) entry is removed. */
    method RemoveUser(user: string)
      requires Valid()
      modifies this`listModel
      ensures Valid()
      ensures listModel == RemoveFirst(old(listModel), user)
      ensures listModel == Without(old(listModel), user) && user !in listModel
    {
      RemoveFirstOfNoDup(listModel, user);
      listModel := RemoveFirst(listModel, user);
    }

    /** The user types into the text field, which Swing allows only while it is editable. */
    method EditText(text: string)
      requires Valid() && canSend
      modifies this`textField
      ensures Valid()
      ensures textField == text
    {
      textField := text;
    }

    /**
     * `sendMessage`: the trimmed text goes out as BROADCAST or as PRIVATE to
     * the selected users, and the field is cleared; when nothing is sent the
     * field keeps its text.
     */
    method SendMessage(broadcast: bool, selected: seq<string>)
      requires Valid()
      modifies this`sent, this`textField
      ensures Valid()
      ensures OutgoingLine(old(textField), broadcast, selected).Some? ==>
        sent == old(sent) + [OutgoingLine(old(textField), broadcast, selected).value] && textField == ""
      ensures OutgoingLine(old(textField), broadcast, selected).None? ==>
        sent == old(sent) && textField == old(textField)
      ensures !canSend ==> sent == old(sent)
    {
      var line := OutgoingLine(textField, broadcast, selected);
      if line.Some? {
        sent := sent + [line.value];
        textField := "";
      }
    }

    /** A USERLIST line: the list is cleared, then `addUser` is called on each entry. */
    method RefillUsers(users: seq<string>)
      requires Valid()
      modifies this`listModel
      ensures Valid()
      ensures listModel == Distinct(users)
    {
      listModel := [];
      for i := 0 to |users|
        invariant Valid()
        invariant listModel == Distinct(users[..i])
      {
        assert users[..i + 1][..i] == users[..i];
        AddUser(users[i]);
      }
      assert users[..|users|] == users;
    }

    /**
     * One pass of the read loop of `run`: `line` is what `readLine` returned
     * (None at end of stream) and `answer` what the name dialog returned.
     * The result is false when the pass throws and `run` ends.
     */
    method ReceiveLine(line: Option<string>, answer: Option<string>) returns (alive: bool)
      requires Valid()
      modifies this
      ensures Valid()
      ensures alive <==> line.Some? && !Classify(line.value).Truncated?
      ensures textField == old(textField)
      ensures !alive ==> messageArea == old(messageArea) && sent == old(sent) && canSend == old(canSend)
      ensures !alive ==> listModel == if line == Some("USERLIST") then [] else old(listModel)
      ensures alive ==>
        match Classify(line.value)
        case SubmitName =>
          sent == old(sent) + [Printed(answer)]
          && listModel == old(listModel) && messageArea == old(messageArea) && canSend == old(canSend)
        case NameAccepted =>
          canSend
          && listModel == old(listModel) && messageArea == old(messageArea) && sent == old(sent)
        case Message(text) =>
          messageArea == old(messageArea) + text + "\n"
          && listModel == old(listModel) && sent == old(sent) && canSend == old(canSend)
        case UserList(users) =>
          listModel == Distinct(users)
          && messageArea == old(messageArea) && sent == old(sent) && canSend == old(canSend)
        case UserJoined(user) =>
          listModel == Added(old(listModel), user)
          && messageArea == old(messageArea) && sent == old(sent) && canSend == old(canSend)
        case UserLeft(user) =>
          messageArea == old(messageArea) + user + " has left the chat.\n"
          && listModel == RemoveFirst(old(listModel), user) && user !in listModel
          && sent == old(sent) && canSend == old(canSend)
        case _ =>
          listModel == old(listModel) && messageArea == old(messageArea) && sent == old(sent) && canSend == old(canSend)
    {
      if line.None? {
        return false;
      }
      alive := true;
      match Classify(line.value)
      case SubmitName =>
        sent := sent + [Printed(answer)];
      case NameAccepted =>
        canSend := true;
      case Message(text) =>
        messageArea := messageArea + text + "\n";
      case UserList(users) =>
        RefillUsers(users);
      case UserJoined(user) =>
        AddUser(user);
      case UserLeft(user) =>
        messageArea := messageArea + user + " has left the chat.\n";
        RemoveUser(user);
      case Unrecognized =>
      case Truncated(clearsList) =>
        TruncatedExactlyOnBareKeywords(line.value);
        if clearsList {
          listModel := [];
        }
        alive := false;
    }
  }
}

=== FILE: java_lib.dfy ===
/**
 * The pieces of java.lang.String and java.util that the chat programs rely on,
 * written out so that their edge cases are explicit: `startsWith`, `indexOf`,
 * `split(",")`, `String.join(",", ...)`, `trim`, and the (unspecified) iteration
 * order of a `HashSet`.
 */
module JavaLib {

  /** `s.startsWith(p)` */
  predicate StartsWith(s: string, p: string) {
    |p| <= |s| && s[..|p|] == p
  }

  /** A string that starts with `p` agrees with `p` at each position of `p`. */
  lemma PrefixAt(s: string, p: string, k: nat)
    requires StartsWith(s, p) && k < |p|
    ensures s[k] == p[k]
  {
    assert s[..|p|][k] == s[k];
  }

  /** A string that differs from `p` at position `k` does not start with `p`. */
  lemma DiffersAt(s: string, p: string, k: nat)
    requires k < |s| && k < |p| && s[k] != p[k]
    ensures !StartsWith(s, p)
  {
  }

  /** `s.indexOf(c)`: the index of the first `c` in `s`, or -1 when there is none. */
  function IndexOf(s: string, c: char): (r: int)
    ensures r == -1 <==> c !in s
    ensures r != -1 ==> 0 <= r < |s| && s[r] == c && c !in s[..r]
  {
    if s == [] then -1
    else if s[0] == c then 0
    else
      var k := IndexOf(s[1..], c);
      if k == -1 then -1
      else
        assert s[..k + 1] == [s[0]] + s[1..][..k];
        k + 1
  }

  /** `String.join(",", parts)`: the first part leads, followed by a comma when more parts follow. */
  function Join(parts: seq<string>): (r: string)
    ensures parts == [] ==> r == ""
    ensures parts != [] ==> StartsWith(r, parts[0])
    ensures |parts| == 1 ==> r == parts[0]
    ensures |parts| > 1 ==> |r| > |parts[0]| && r[|parts[0]|] == ','
  {
    if parts == [] then ""
    else if |parts| == 1 then parts[0]
    else parts[0] + "," + Join(parts[1..])
  }

  predicate CommaFree(s: string) {
    ',' !in s
  }

  /**
   * Every comma-separated field of `s`, empty ones included: the list that
   * `split` builds before it drops trailing empty strings.
   */
  function Fields(s: string): (fs: seq<string>)
    ensures |fs| >= 1
    ensures forall i :: 0 <= i < |fs| ==> CommaFree(fs[i])
  {
    if s == [] then [""]
    else
      var rest := Fields(s[1..]);
      if s[0] == ',' then [""] + rest
      else [[s[0]] + rest[0]] + rest[1..]
  }

  /** Drops the empty strings at the end of `fs`, as `split` with limit 0 does. */
  function DropTrailingEmpty(fs: seq<string>): (r: seq<string>)
    ensures |r| <= |fs| && r == fs[..|r|]
    ensures r == [] || r[|r| - 1] != ""
    ensures forall i :: |r| <= i < |fs| ==> fs[i] == ""
  {
    if fs != [] && fs[|fs| - 1] == "" then DropTrailingEmpty(fs[..|fs| - 1]) else fs
  }

  /**
   * `s.split(",")`. When the separator does not occur the result is `[s]`
   * (so `"".split(",")` is `[""]`); otherwise the fields with trailing empty
   * strings removed (so `",".split(",")` is `[]`).
   */
  function Split(s: string): (r: seq<string>)
    ensures CommaFree(s) ==> r == [s]
    ensures forall i :: 0 <= i < |r| ==> CommaFree(r[i])
    ensures !CommaFree(s) ==> |r| <= |Fields(s)| && r == Fields(s)[..|r|] && (r == [] || r[|r| - 1] != "")
    ensures !CommaFree(s) ==> forall i :: |r| <= i < |Fields(s)| ==> Fields(s)[i] == ""
  {
    if CommaFree(s) then [s] else DropTrailingEmpty(Fields(s))
  }

  /** A comma-free string is a single field. */
  lemma {:induction false} FieldsOfCommaFree(a: string)
    requires CommaFree(a)
    ensures Fields(a) == [a]
  {
    if a != [] {
      FieldsOfCommaFree(a[1..]);
      assert [a[0]] + a[1..] == a;
    }
  }

  /** A comma-free prefix followed by a comma is the first field. */
  lemma {:induction false} FieldsOfCons(a: string, rest: string)
    requires CommaFree(a)
    ensures Fields(a + "," + rest) == [a] + Fields(rest)
  {
    if a == [] {
      assert a + "," + rest == [','] + rest;
      assert (a + "," + rest)[1..] == rest;
    } else {
      var s := a + "," + rest;
      assert s[1..] == a[1..] + "," + rest;
      FieldsOfCons(a[1..], rest);
      assert [a[0]] + a[1..] == a;
    }
  }

  /** Splitting into fields undoes joining comma-free parts. */
  lemma {:induction false} FieldsOfJoin(parts: seq<string>)
    requires parts != []
    requires forall i :: 0 <= i < |parts| ==> CommaFree(parts[i])
    ensures Fields(Join(parts)) == parts
  {
    if |parts| == 1 {
      FieldsOfCommaFree(parts[0]);
    } else {
      FieldsOfJoin(parts[1..]);
      FieldsOfCons(parts[0], Join(parts[1..]));
      assert [parts[0]] + parts[1..] == parts;
    }
  }

  /** Joining the fields of a string gives the string back. */
  lemma {:induction false} JoinOfFields(s: string)
    ensures Join(Fields(s)) == s
  {
    if s != [] {
      JoinOfFields(s[1..]);
      var rest := Fields(s[1..]);
      if s[0] == ',' {
        assert Fields(s) == [""] + rest;
        assert Join(Fields(s)) == "" + "," + Join(rest);
        assert s == [','] + s[1..];
      } else {
        var fs := Fields(s);
        assert fs == [[s[0]] + rest[0]] + rest[1..];
        if |rest| == 1 {
          assert Join(fs) == [s[0]] + rest[0];
          assert s == [s[0]] + s[1..];
        } else {
          assert fs[1..] == rest[1..];
          assert Join(rest) == rest[0] + "," + Join(rest[1..]);
          assert Join(fs) == ([s[0]] + rest[0]) + "," + Join(rest[1..]);
          assert s == [s[0]] + s[1..];
        }
      }
    }
  }

  /**
   * The parts survive a join followed by `split(",")` when none of them
   * holds a comma and the last is not an empty string (a lone part may be
   * empty).
   */
  lemma SplitOfJoin(parts: seq<string>)
    requires parts != []
    requires forall i :: 0 <= i < |parts| ==> CommaFree(parts[i])
    requires |parts| == 1 || parts[|parts| - 1] != ""
    ensures Split(Join(parts)) == parts
  {
    if |parts| == 1 {
      assert Join(parts) == parts[0];
    } else {
      assert Join(parts) == parts[0] + "," + Join(parts[1..]);
      assert ',' in Join(parts) by {
        assert Join(parts)[|parts[0]|] == ',';
      }
      FieldsOfJoin(parts);
    }
  }

  /** An empty trailing part is lost: `String.join` then `split` is not the identity. */
  lemma SplitOfJoinDropsTrailingEmpty(a: string)
    requires CommaFree(a) && a != ""
    ensures Split(Join([a, ""])) == [a]
  {
    assert Join([a, ""]) == a + "," + "";
    assert ',' in Join([a, ""]) by {
      assert Join([a, ""])[|a|] == ',';
    }
    FieldsOfJoin([a, ""]);
    assert DropTrailingEmpty([a, ""]) == DropTrailingEmpty([a]) by {
      assert [a, ""][..1] == [a];
    }
  }

  /** A character other than the comma is in the joined string only if it is in some part. */
  lemma {:induction false} JoinAvoids(parts: seq<string>, ch: char)
    requires ch != ','
    requires forall i :: 0 <= i < |parts| ==> ch !in parts[i]
    ensures ch !in Join(parts)
  {
    if |parts| > 1 {
      JoinAvoids(parts[1..], ch);
    }
  }

  /** The joined string is empty exactly when there are no parts or a single empty one. */
  lemma JoinIsEmpty(parts: seq<string>)
    ensures Join(parts) == "" <==> parts == [] || parts == [""]
  {
    if |parts| > 1 {
      assert |Join(parts)| >= 1 by {
        assert Join(parts) == parts[0] + "," + Join(parts[1..]);
      }
    }
  }

  /** Java's `trim` removes every leading and trailing character at or below U+0020. */
  predicate Blank(s: string) {
    forall k :: 0 <= k < |s| ==> s[k] <= ' '
  }

  /** `s.trim()`: blanks are removed from the front, then from the back. */
  function Trim(s: string): (r: string)
    ensures r == [] || (r[0] > ' ' && r[|r| - 1] > ' ')
    ensures r == [] <==> Blank(s)
    decreases |s|
  {
    if s == [] then []
    else if s[0] <= ' ' then
      assert Blank(s) <==> Blank(s[1..]) by {
        if Blank(s[1..]) {
          forall k | 0 <= k < |s| ensures s[k] <= ' ' {
            if k > 0 { assert s[k] == s[1..][k - 1]; }
          }
        }
      }
      Trim(s[1..])
    else if s[|s| - 1] <= ' ' then
      assert !Blank(s) && !Blank(s[..|s| - 1]) by {
        assert s[..|s| - 1][0] == s[0];
      }
      Trim(s[..|s| - 1])
    else
      s
  }

  /** `r` sits at offset `i` of `s` with only blanks before and after it. */
  predicate Framed(s: string, i: int, r: string) {
    0 <= i && i + |r| <= |s| && Blank(s[..i]) && r == s[i..i + |r|] && Blank(s[i + |r|..])
  }

  /** What `Trim` keeps is a piece of `s` with only blanks before and after it. */
  lemma {:induction false} TrimInfix(s: string)
    ensures exists i :: Framed(s, i, Trim(s))
    decreases |s|
  {
    var r := Trim(s);
    if s == [] {
      assert Framed(s, 0, r);
    } else if s[0] <= ' ' {
      var t := s[1..];
      TrimInfix(t);
      var i :| Framed(t, i, r);
      FramedAfterBlank(s, i, r);
    } else if s[|s| - 1] <= ' ' {
      var t := s[..|s| - 1];
      TrimInfix(t);
      var i :| Framed(t, i, r);
      FramedBeforeBlank(s, i, r);
    } else {
      assert s[0..|s|] == s;
      assert Framed(s, 0, r);
    }
  }

  lemma FramedAfterBlank(s: string, i: int, r: string)
    requires s != [] && s[0] <= ' ' && Framed(s[1..], i, r)
    ensures Framed(s, i + 1, r)
  {
    var t := s[1..];
    assert s[..i + 1] == [s[0]] + t[..i];
    assert s[i + 1..i + 1 + |r|] == t[i..i + |r|];
    assert s[i + 1 + |r|..] == t[i + |r|..];
  }

  lemma FramedBeforeBlank(s: string, i: int, r: string)
    requires s != [] && s[|s| - 1] <= ' ' && Framed(s[..|s| - 1], i, r)
    ensures Framed(s, i, r)
  {
    var t := s[..|s| - 1];
    assert s[..i] == t[..i];
    assert s[i..i + |r|] == t[i..i + |r|];
    assert s[i + |r|..] == t[i + |r|..] + [s[|s| - 1]];
  }

  predicate NoDup<T(==)>(s: seq<T>) {
    forall i, j :: 0 <= i < j < |s| ==> s[i] != s[j]
  }

  /** `order` lists the elements of `s`, each once: one possible iteration order of a `HashSet`. */
  ghost predicate IsEnumeration(order: seq<string>, s: set<string>) {
    NoDup(order) && forall x :: x in order <==> x in s
  }

  /**
   * Iterates over a `HashSet`: the order is unspecified, so each step takes
   * an arbitrary element that has not been visited.
   */
  method Enumerate(s: set<string>) returns (order: seq<string>)
    ensures IsEnumeration(order, s)
  {
    order := [];
    var rest := s;
    while rest != {}
      invariant rest <= s
      invariant NoDup(order)
      invariant forall x :: x in order <==> x in s && x !in rest
      decreases rest
    {
      var x :| x in rest;
      order := order + [x];
      rest := rest - {x};
    }
  }
}

=== FILE: round_trip.dfy ===
/**
 * The two programs against each other: the lines the client builds are the
 * lines the server parses, and the lines the server prints are the lines the
 * client's read loop expects.
 */
module RoundTrip {
  import opened Wrappers
  import opened JavaLib
  import Server
  import Client

  /** A name the protocol carries intact: non-empty, with no space and no comma. */
  predicate WellFormedName(n: string) {
    n != "" && ' ' !in n && ',' !in n
  }

  /** The client's BROADCAST line reaches the server as a broadcast of the trimmed text. */
  lemma BroadcastRoundTrip(text: string, selected: seq<string>)
    requires Trim(text) != ""
    ensures var line := Client.OutgoingLine(text, true, selected);
      line == Some("BROADCAST " + Trim(text)) && Server.ParseCommand(line.value) == Server.Broadcast(Trim(text))
  {
    var line := "BROADCAST " + Trim(text);
    assert line[..10] == "BROADCAST ";
    assert line[10..] == Trim(text);
  }

  /**
   * The client's PRIVATE line is parsed by the server into exactly the
   * selected recipients, in order, and the trimmed text.
   */
  lemma PrivateRoundTrip(text: string, selected: seq<string>)
    requires Trim(text) != ""
    requires selected != [] && forall i :: 0 <= i < |selected| ==> WellFormedName(selected[i])
    ensures var line := Client.OutgoingLine(text, false, selected);
      && line.Some?
      && Server.ParseCommand(line.value).Private?
      && Server.ParsePrivate(Server.ParseCommand(line.value).data) == Some((selected, Trim(text)))
  {
    var users := Join(selected);
    var message := Trim(text);
    JoinIsEmpty(selected);
    assert users != "";
    var line := "PRIVATE " + users + " " + message;
    assert Client.OutgoingLine(text, false, selected) == Some(line);
    assert line == "PRIVATE " + (users + " " + message);
    assert StartsWith(line, "PRIVATE ");
    assert !StartsWith(line, "BROADCAST ") by {
      DiffersAt(line, "BROADCAST ", 0);
    }
    var data := Server.ParseCommand(line).data;
    assert data == users + " " + message;
    ParsePrivateOfJoin(selected, message);
  }

  /** A payload of well-formed names joined by commas, a space and a message is read back as those parts. */
  lemma ParsePrivateOfJoin(recipients: seq<string>, message: string)
    requires recipients != [] && forall i :: 0 <= i < |recipients| ==> WellFormedName(recipients[i])
    ensures Server.ParsePrivate(Join(recipients) + " " + message) == Some((recipients, message))
  {
    JoinAvoids(recipients, ' ');
    Server.SplitAtFirstSpaceOf(Join(recipients), message);
    forall i | 0 <= i < |recipients| ensures CommaFree(recipients[i]) {
      assert WellFormedName(recipients[i]);
    }
    SplitOfJoin(recipients);
  }

  /**
   * A selected name with a space in it is cut at that space: the server reads
   * its first word as the only recipient, and the rest joins the message.
   */
  lemma SpaceInNameMisroutes(head: string, rest: string, message: string)
    requires ' ' !in head && CommaFree(head)
    ensures Server.ParsePrivate(head + " " + rest + " " + message) == Some(([head], rest + " " + message))
  {
    assert head + " " + rest + " " + message == head + " " + (rest + " " + message);
    Server.SplitAtFirstSpaceOf(head, rest + " " + message);
  }

  /** A broadcast delivery shows in the client's message area as `<sender>: <text>`. */
  lemma MessageRoundTrip(sender: string, text: string)
    ensures Client.Classify(Server.MessageLine(sender, text)) == Client.Message(sender + ": " + text)
  {
    var line := Server.MessageLine(sender, text);
    assert line == "MESSAGE " + (sender + ": " + text);
    DiffersAt(line, "SUBMITNAME", 0);
    DiffersAt(line, "NAMEACCEPTED", 0);
    assert line[..7] == "MESSAGE";
  }

  /** A private delivery shows as `(Private) <sender>: <text>`. */
  lemma PrivateMessageRoundTrip(sender: string, text: string)
    ensures Client.Classify(Server.PrivateLine(sender, text)) == Client.Message("(Private) " + sender + ": " + text)
  {
    var line := Server.PrivateLine(sender, text);
    assert line == "MESSAGE " + ("(Private) " + sender + ": " + text);
    DiffersAt(line, "SUBMITNAME", 0);
    DiffersAt(line, "NAMEACCEPTED", 0);
    assert line[..7] == "MESSAGE";
  }

  /** The server's two prompts are recognised by the client. */
  lemma PromptsRoundTrip()
    ensures Client.Classify(Server.SUBMIT_NAME) == Client.SubmitName
    ensures Client.Classify(Server.NAME_ACCEPTED) == Client.NameAccepted
  {
    DiffersAt(Server.NAME_ACCEPTED, "SUBMITNAME", 0);
  }

  /**
   * A USERLIST line the server builds from the registered names makes the
   * client's list hold exactly those names, in the order they were sent.
   */
  lemma UserListRoundTrip(order: seq<string>, names: set<string>)
    requires IsEnumeration(order, names) && names != {}
    requires forall n :: n in names ==> WellFormedName(n)
    ensures var received := Client.Classify(Server.UserListLine(order));
      && received.UserList?
      && Client.Distinct(received.users) == order
      && forall n :: n in Client.Distinct(received.users) <==> n in names
  {
    assert order != [] by {
      var n :| n in names;
      assert n in order;
    }
    forall i | 0 <= i < |order| ensures CommaFree(order[i]) && order[i] != "" {
      assert order[i] in names;
    }
    UserListClassified(order);
    Client.DistinctOfNoDup(order);
  }

  /** The USERLIST line of non-empty comma-free names is read as that very list. */
  lemma UserListClassified(order: seq<string>)
    requires order != [] && forall i :: 0 <= i < |order| ==> CommaFree(order[i]) && order[i] != ""
    ensures Client.Classify(Server.UserListLine(order)) == Client.UserList(order)
  {
    var line := Server.UserListLine(order);
    assert line == "USERLIST " + Join(order);
    DiffersAt(line, "SUBMITNAME", 0);
    DiffersAt(line, "NAMEACCEPTED", 0);
    DiffersAt(line, "MESSAGE", 0);
    assert line[..8] == "USERLIST";
    assert line[9..] == Join(order);
    SplitOfJoin(order);
  }
}

=== FILE: scenarios.dfy ===
/**
 * Client code of the server model: concrete scenarios whose outcomes follow from
 * the method contracts alone.
 */
module Scenarios {
  import opened Wrappers
  import opened JavaLib
  import opened Server
  import RoundTrip

  lemma WithoutAlice()
    ensures forall a: Conn, b: Conn :: map["alice" := a, "bob" := b] - {"alice"} == map["bob" := b]
  {
    assert "alice" != "bob";
  }

  /** A second client asking for "alice" is prompted again and nothing else changes. */
  method SameNameTwice()
  {
    var s, a := AliceAlone();
    var b := s.Connect();
    var _ := s.SubmitName(b, "alice");
    assert s.wire[b] == [SUBMIT_NAME, SUBMIT_NAME];
    assert s.clientWriters == map["alice" := a];
  }

  /** A server where alice and bob have been admitted, and nobody else is connected. */
  method AliceAndBob() returns (s: ChatServer, a: Conn, b: Conn)
    ensures fresh(s) && s.Valid()
    ensures s.clientWriters == map["alice" := a, "bob" := b] && s.names == {"alice", "bob"}
    ensures s.wire.Keys == {a, b} && a != b
  {
    s, a := AliceAlone();
    b := s.Connect();
    assert "bob" !in s.names;
    var _ := s.SubmitName(b, "bob");
  }

  /** A server where alice alone has connected and been admitted. */
  method AliceAlone() returns (s: ChatServer, a: Conn)
    ensures fresh(s) && s.Valid()
    ensures s.clientWriters == map["alice" := a] && s.names == {"alice"}
    ensures s.wire.Keys == {a}
    ensures exists order :: IsEnumeration(order, {"alice"}) && s.wire[a] == [SUBMIT_NAME, NAME_ACCEPTED, UserListLine(order)]
  {
    s := new ChatServer();
    a := s.Connect();
    var order := s.SubmitName(a, "alice");
    assert s.clientWriters.Values == {a};
    assert s.wire[a] == [SUBMIT_NAME, NAME_ACCEPTED, UserListLine(order)];
  }

  /** With alice and bob online, `PRIVATE bob,carol <message>` from alice reaches bob only. */
  method PrivateToPartlyOnline(message: string)
  {
    var s, a, b := AliceAndBob();
    RoundTrip.ParsePrivateOfJoin(["bob", "carol"], message);
    var line := PrivateLine("alice", message);
    ghost var before := s.wire;
    s.HandlePrivateMessage("alice", Join(["bob", "carol"]) + " " + message);
    BobOnly(before, a, b, line);
    assert s.wire == before[b := before[b] + [line]];
  }

  /** Routing `line` to bob and carol when only alice and bob are registered. */
  lemma BobOnly(wire: Wire, a: Conn, b: Conn, line: string)
    requires a in wire && b in wire
    ensures DeliverEach(wire, map["alice" := a, "bob" := b], ["bob", "carol"], line) == wire[b := wire[b] + [line]]
  {
    var writers := map["alice" := a, "bob" := b];
    assert "carol" !in writers by {
      assert "carol"[0] != "alice"[0] && "carol"[0] != "bob"[0];
    }
    assert ["bob", "carol"][..1] == ["bob"];
    assert ["bob"][..0] == [];
  }

  /** A PRIVATE payload without a space delivers nothing. */
  method PrivateWithoutSpace(data: string)
    requires ' ' !in data
  {
    var s, _, _ := AliceAndBob();
    ghost var before := s.wire;
    s.HandlePrivateMessage("alice", data);
    assert s.wire == before;
  }

  /** alice leaves: bob is told, and a newcomer can then take the name alice. */
  method LeaveAndRejoin()
  {
    WithoutAlice();
    var s, a, b := AliceAndBob();
    ghost var before := s.wire;
    var order := s.Cleanup(a);
    assert s.clientWriters == map["bob" := b];
    assert s.names == {"bob"};
    assert s.clientWriters.Values == {b};
    var left := MessageLine(SERVER_SENDER, LeftText("alice"));
    ghost var announced := Deliver(before, {b}, left);
    DeliverAt(before, {b}, left, b);
    DeliverAt(announced, {b}, UserListLine(order), b);
    DeliverAt(before, {b}, left, a);
    DeliverAt(announced, {b}, UserListLine(order), a);
    assert s.wire[b] == (before[b] + [left]) + [UserListLine(order)];
    assert s.wire[a] == before[a];
    var c := s.Connect();
    var _ := s.SubmitName(c, "alice");
    assert s.clientWriters == map["bob" := b, "alice" := c];
  }

  /**
   * The `name` field keeps a refused candidate: when the refused client's
   * connection then fails, cleanup evicts the other client's registration.
   */
  method StaleNameEvictsOwner()
  {
    var s := new ChatServer();
    var a := s.Connect();
    var b := s.Connect();
    var _ := s.SubmitName(a, "alice");
    var _ := s.SubmitName(b, "alice");
    assert s.handlers[b] == Handler(Some("alice"), Negotiating);
    var _ := s.Cleanup(b);
    assert s.handlers[a] == Handler(Some("alice"), Active);
    assert "alice" !in s.names && a !in s.clientWriters.Values;
  }
}

=== FILE: server.dfy ===
/**
 * The chat server's name registry and message router (ChatServer and its
 * Handler). The static `names` set and `clientWriters` map are fields of one
 * `ChatServer` object, together with what every connection's PrintWriter has
 * printed and the state of every Handler thread. Each Handler step (one line
 * read, or the end of its input) is one atomic method call.
 */
module Server {
  import opened Wrappers
  import opened JavaLib

  /** The identity of one connection's PrintWriter (a Handler's `out`). */
  type Conn = nat

  /** For each connection, every line its PrintWriter has printed, oldest first. */
  type Wire = map<Conn, seq<string>>

  const SUBMIT_NAME: string := "SUBMITNAME"
  const NAME_ACCEPTED: string := "NAMEACCEPTED"
  const SERVER_SENDER: string := "Server"

  function MessageLine(sender: string, text: string): string {
    "MESSAGE " + sender + ": " + text
  }

  function PrivateLine(sender: string, text: string): string {
    "MESSAGE (Private) " + sender + ": " + text
  }

  /** The USERLIST line for the names in the order the HashSet yielded them. */
  function UserListLine(order: seq<string>): string {
    "USERLIST " + Join(order)
  }

  function LeftText(name: string): string {
    name + " has left the chat."
  }

  /** Where a Handler's `run` is: asking for a name, serving commands, or finished. */
  datatype Phase = Negotiating | Active | Closed

  /** A Handler thread: its `name` field (null until a line is read) and its phase. */
  datatype Handler = Handler(name: Option<string>, phase: Phase)

  /** What one `in.readLine()` produced: a line, null at end of stream, or an IOException. */
  datatype Input = Line(text: string) | EndOfStream | IOError

  /** A command line read from an admitted client. */
  datatype Command = Broadcast(text: string) | Private(data: string) | Ignored

  /** The prefix test of the message loop; the payload is what follows the prefix. */
  function ParseCommand(input: string): (cmd: Command)
    ensures cmd.Broadcast? <==> StartsWith(input, "BROADCAST ")
    ensures cmd.Private? <==> !StartsWith(input, "BROADCAST ") && StartsWith(input, "PRIVATE ")
    ensures cmd.Broadcast? ==> input == "BROADCAST " + cmd.text
    ensures cmd.Private? ==> input == "PRIVATE " + cmd.data
  {
    if StartsWith(input, "BROADCAST ") then
      assert input == input[..10] + input[10..];
      Broadcast(input[10..])
    else if StartsWith(input, "PRIVATE ") then
      assert input == input[..8] + input[8..];
      Private(input[8..])
    else Ignored
  }

  /** The payload of PRIVATE cut at its first space: recipients before, message after. */
  function SplitAtFirstSpace(data: string): (r: Option<(string, string)>)
    ensures r.None? <==> ' ' !in data
    ensures r.Some? ==> ' ' !in r.value.0 && data == r.value.0 + " " + r.value.1
  {
    var k := IndexOf(data, ' ');
    if k == -1 then None
    else
      CutAt(data, k);
      Some((data[..k], data[k + 1..]))
  }

  /** A string is what comes before position `k`, the space at `k`, and what follows. */
  lemma CutAt(data: string, k: nat)
    requires k < |data| && data[k] == ' '
    ensures data == data[..k] + " " + data[k + 1..]
  {
    assert data[..k] + " " + data[k + 1..] == data[..k] + data[k..k + 1] + data[k + 1..];
  }

  /** The cut is unique: a space-free head before the first space is always found. */
  lemma SplitAtFirstSpaceOf(head: string, tail: string)
    requires ' ' !in head
    ensures SplitAtFirstSpace(head + " " + tail) == Some((head, tail))
  {
    var data := head + " " + tail;
    assert data[|head|] == ' ';
    var r := SplitAtFirstSpace(data);
    var (x, y) := r.value;
    assert |x| == |head|;
    assert x == data[..|x|] == head;
    assert y == data[|x| + 1..] == tail;
  }

  /** The recipients (split on commas) and the message of a PRIVATE payload. */
  function ParsePrivate(data: string): (r: Option<(seq<string>, string)>)
    ensures r.None? <==> ' ' !in data
    ensures r.Some? ==>
      exists head :: ' ' !in head && data == head + " " + r.value.1 && r.value.0 == Split(head)
  {
    match SplitAtFirstSpace(data)
    case None => None
    case Some((recipients, message)) => Some((Split(recipients), message))
  }

  /** The wire after `println(line)` on each writer in `targets`. */
  function Deliver(wire: Wire, targets: set<Conn>, line: string): Wire {
    map c | c in wire :: if c in targets then wire[c] + [line] else wire[c]
  }

  lemma DeliverAt(wire: Wire, targets: set<Conn>, line: string, c: Conn)
    requires c in wire
    ensures Deliver(wire, targets, line)[c] == if c in targets then wire[c] + [line] else wire[c]
  {
  }

  /** Delivering to one more writer is one more `println` on it. */
  lemma DeliverStep(wire: Wire, done: set<Conn>, w: Conn, line: string)
    requires w in wire && w !in done
    ensures var before := Deliver(wire, done, line);
      Deliver(wire, done + {w}, line) == before[w := before[w] + [line]]
  {
  }

  /** Every writer of `writers` prints on a connection of `wire`. */
  predicate WritersIn(writers: map<string, Conn>, wire: Wire) {
    forall n :: n in writers ==> writers[n] in wire
  }

  /**
   * The wire after a `println(line)` on the writer of each registered name of
   * `recipients`, in list order; unregistered names are skipped.
   */
  function DeliverEach(wire: Wire, writers: map<string, Conn>, recipients: seq<string>, line: string): (w: Wire)
    requires WritersIn(writers, wire)
    ensures w.Keys == wire.Keys
    decreases |recipients|
  {
    if recipients == [] then wire
    else
      var before := DeliverEach(wire, writers, recipients[..|recipients| - 1], line);
      var r := recipients[|recipients| - 1];
      if r in writers then before[writers[r] := before[writers[r]] + [line]] else before
  }

  /** How many entries of `recipients` are registered names whose writer is `c`. */
  function Hits(writers: map<string, Conn>, recipients: seq<string>, c: Conn): nat
    decreases |recipients|
  {
    if recipients == [] then 0
    else
      var r := recipients[|recipients| - 1];
      Hits(writers, recipients[..|recipients| - 1], c) + if r in writers && writers[r] == c then 1 else 0
  }

  /** `k` copies of `line`. */
  function Copies(line: string, k: nat): (r: seq<string>)
    ensures |r| == k && forall i :: 0 <= i < k ==> r[i] == line
  {
    if k == 0 then [] else Copies(line, k - 1) + [line]
  }

  /** Each writer gains one line per recipient entry that resolves to it, and nothing else. */
  lemma {:induction false} DeliverEachCounts(wire: Wire, writers: map<string, Conn>, recipients: seq<string>, line: string)
    requires WritersIn(writers, wire)
    ensures forall c :: c in wire ==>
      DeliverEach(wire, writers, recipients, line)[c] == wire[c] + Copies(line, Hits(writers, recipients, c))
    decreases |recipients|
  {
    if recipients != [] {
      var init := recipients[..|recipients| - 1];
      DeliverEachCounts(wire, writers, init, line);
      forall c | c in wire
        ensures DeliverEach(wire, writers, recipients, line)[c] == wire[c] + Copies(line, Hits(writers, recipients, c))
      {
        var r := recipients[|recipients| - 1];
        if r in writers && writers[r] == c {
          assert Copies(line, Hits(writers, recipients, c)) == Copies(line, Hits(writers, init, c)) + [line];
        }
      }
    }
  }

  predicate Injective(writers: map<string, Conn>) {
    forall m, n :: m in writers && n in writers && writers[m] == writers[n] ==> m == n
  }

  /** With one writer per name, a registered name's writer is hit once per listing of the name. */
  lemma {:induction false} HitsOfRegistered(writers: map<string, Conn>, recipients: seq<string>, n: string)
    requires Injective(writers) && n in writers
    ensures Hits(writers, recipients, writers[n]) == multiset(recipients)[n]
    decreases |recipients|
  {
    if recipients != [] {
      var init := recipients[..|recipients| - 1];
      HitsOfRegistered(writers, init, n);
      assert recipients == init + [recipients[|recipients| - 1]];
    }
  }

  /** A writer that no name maps to is never hit. */
  lemma {:induction false} HitsOfUnregistered(writers: map<string, Conn>, recipients: seq<string>, c: Conn)
    requires c !in writers.Values
    ensures Hits(writers, recipients, c) == 0
    decreases |recipients|
  {
    if recipients != [] {
      var r := recipients[|recipients| - 1];
      HitsOfUnregistered(writers, recipients[..|recipients| - 1], c);
    }
  }

  /** With one writer per name: a name's writer gets one copy per listing, an unnamed writer none. */
  lemma DeliverEachByName(wire: Wire, writers: map<string, Conn>, recipients: seq<string>, line: string)
    requires WritersIn(writers, wire) && Injective(writers)
    ensures forall n :: n in writers ==>
      DeliverEach(wire, writers, recipients, line)[writers[n]] == wire[writers[n]] + Copies(line, multiset(recipients)[n])
    ensures forall c :: c in wire && c !in writers.Values ==> DeliverEach(wire, writers, recipients, line)[c] == wire[c]
  {
    DeliverEachCounts(wire, writers, recipients, line);
    forall n | n in writers
      ensures DeliverEach(wire, writers, recipients, line)[writers[n]] == wire[writers[n]] + Copies(line, multiset(recipients)[n])
    {
      HitsOfRegistered(writers, recipients, n);
    }
    forall c | c in wire && c !in writers.Values
      ensures DeliverEach(wire, writers, recipients, line)[c] == wire[c]
    {
      HitsOfUnregistered(writers, recipients, c);
    }
  }

  /** Output is append-only: no connection appears or disappears and no printed line is lost. */
  ghost predicate Extends(before: Wire, after: Wire) {
    before.Keys == after.Keys && forall c :: c in before ==> before[c] <= after[c]
  }

  lemma {:induction false} DeliverEachExtends(wire: Wire, writers: map<string, Conn>, recipients: seq<string>, line: string)
    requires WritersIn(writers, wire)
    ensures Extends(wire, DeliverEach(wire, writers, recipients, line))
  {
    DeliverEachCounts(wire, writers, recipients, line);
  }

  /** Every registered writer belongs to an admitted Handler whose name is the key. */
  ghost predicate OwnedByActive(writers: map<string, Conn>, handlers: map<Conn, Handler>) {
    forall n :: n in writers ==> writers[n] in handlers && handlers[writers[n]] == Handler(Some(n), Active)
  }

  lemma DeliverExtends(wire: Wire, targets: set<Conn>, line: string)
    ensures Extends(wire, Deliver(wire, targets, line))
  {
  }

  lemma ExtendsTransitive(a: Wire, b: Wire, c: Wire)
    requires Extends(a, b) && Extends(b, c)
    ensures Extends(a, c)
  {
  }

  /** A map that differs from `h0` at most at `c`. */
  lemma Replaced(h0: map<Conn, Handler>, h1: map<Conn, Handler>, c: Conn, v: Handler)
    requires h1 == h0[c := v]
    ensures c in h1 && h1 == h0[c := h1[c]]
  {
  }

  /** Two steps that each replace only the entry of `c` replace only the entry of `c`. */
  lemma ReplacedTwice(h0: map<Conn, Handler>, h1: map<Conn, Handler>, h2: map<Conn, Handler>, c: Conn)
    requires c in h1 && h1 == h0[c := h1[c]]
    requires c in h2 && h2 == h1[c := h2[c]]
    ensures h2 == h0[c := h2[c]]
  {
  }

  lemma OwnedWritersAreInjective(writers: map<string, Conn>, handlers: map<Conn, Handler>)
    requires OwnedByActive(writers, handlers)
    ensures Injective(writers)
  {
  }

  class ChatServer {
    /** The static `names` HashSet. */
    var names: set<string>
    /** The static `clientWriters` HashMap, from name to that client's writer. */
    var clientWriters: map<string, Conn>
    /** What each connection's PrintWriter has printed. */
    var wire: Wire
    /** The Handler thread of each accepted connection. */
    var handlers: map<Conn, Handler>
    /** The next connection identity to hand out. */
    var nextConn: Conn

    ghost predicate Valid()
      reads this
    {
      && names == clientWriters.Keys
      && handlers.Keys == wire.Keys
      && (forall c :: c in handlers ==> c < nextConn)
      && (forall c :: c in handlers && handlers[c].phase == Active ==> handlers[c].name.Some?)
      && OwnedByActive(clientWriters, handlers)
    }

    constructor ()
      ensures Valid()
      ensures names == {} && clientWriters == map[] && wire == map[] && handlers == map[] && nextConn == 0
    {
      names := {};
      clientWriters := map[];
      wire := map[];
      handlers := map[];
      nextConn := 0;
    }

    /** A connection is accepted; its Handler starts and prompts for a name. */
    method Connect() returns (c: Conn)
      requires Valid()
      modifies this
      ensures Valid()
      ensures c == old(nextConn) && c !in old(handlers) && nextConn == c + 1
      ensures handlers == old(handlers)[c := Handler(None, Negotiating)]
      ensures wire == old(wire)[c := [SUBMIT_NAME]]
      ensures names == old(names) && clientWriters == old(clientWriters)
    {
      c := nextConn;
      nextConn := nextConn + 1;
      handlers := handlers[c := Handler(None, Negotiating)];
      wire := wire[c := [SUBMIT_NAME]];
    }

    /** `writer.println(line)` for every writer in `clientWriters.values()`, in unspecified order. */
    method PrintlnAll(line: string)
      requires Valid()
      modifies this`wire
      ensures Valid()
      ensures wire == Deliver(old(wire), clientWriters.Values, line)
    {
      var todo := clientWriters.Values;
      ghost var done: set<Conn> := {};
      while todo != {}
        invariant todo + done == clientWriters.Values && todo !! done
        invariant wire == Deliver(old(wire), done, line)
        decreases todo
      {
        var w :| w in todo;
        DeliverStep(old(wire), done, w, line);
        wire := wire[w := wire[w] + [line]];
        todo := todo - {w};
        done := done + {w};
      }
    }

    /** Sends `MESSAGE <sender>: <message>` to every registered client, the sender included. */
    method BroadcastMessage(sender: string, message: string)
      requires Valid()
      modifies this`wire
      ensures Valid()
      ensures wire == Deliver(old(wire), clientWriters.Values, MessageLine(sender, message))
    {
      PrintlnAll(MessageLine(sender, message));
    }

    /** Sends `USERLIST` with all current names, in the HashSet's order, to every registered client. */
    method BroadcastUserList() returns (order: seq<string>)
      requires Valid()
      modifies this`wire
      ensures Valid()
      ensures IsEnumeration(order, names)
      ensures wire == Deliver(old(wire), clientWriters.Values, UserListLine(order))
    {
      order := Enumerate(names);
      PrintlnAll(UserListLine(order));
    }

    /**
     * A PRIVATE payload: without a space nothing is sent; otherwise every
     * registered recipient gets `MESSAGE (Private) <sender>: <message>` once per
     * time it is listed, and unknown recipients are skipped.
     */
    method HandlePrivateMessage(sender: string, data: string)
      requires Valid()
      modifies this`wire
      ensures Valid()
      ensures ParsePrivate(data).None? ==> wire == old(wire)
      ensures ParsePrivate(data).Some? ==>
        var (recipients, message) := ParsePrivate(data).value;
        var line := PrivateLine(sender, message);
        && wire == DeliverEach(old(wire), clientWriters, recipients, line)
        && (forall n :: n in clientWriters ==>
              wire[clientWriters[n]] == old(wire)[clientWriters[n]] + Copies(line, multiset(recipients)[n]))
        && (forall c :: c in old(wire) && c !in clientWriters.Values ==> wire[c] == old(wire)[c])
    {
      var split := SplitAtFirstSpace(data);
      if split.None? {
        return;
      }
      var (recipientsStr, message) := split.value;
      var recipients := Split(recipientsStr);
      var line := PrivateLine(sender, message);
      PrintlnEach(recipients, line);
      OwnedWritersAreInjective(clientWriters, handlers);
      DeliverEachByName(old(wire), clientWriters, recipients, line);
    }

    /**
     * The line read becomes `name`, then the check-and-insert on `names` and
     * `clientWriters`: a name not yet in use is registered with this Handler's
     * writer and the Handler leaves the loop; a taken one changes nothing else.
     */
    method Admit(c: Conn, candidate: string) returns (accepted: bool)
      requires Valid() && c in handlers && handlers[c].phase == Negotiating
      modifies this`names, this`clientWriters, this`handlers
      ensures Valid()
      ensures accepted <==> candidate !in old(names)
      ensures handlers == old(handlers)[c := Handler(Some(candidate), if accepted then Active else Negotiating)]
      ensures accepted ==>
        names == old(names) + {candidate} && clientWriters == old(clientWriters)[candidate := c]
      ensures !accepted ==>
        names == old(names) && clientWriters == old(clientWriters)
    {
      accepted := candidate !in names;
      if accepted {
        names := names + {candidate};
        clientWriters := clientWriters[candidate := c];
        handlers := handlers[c := Handler(Some(candidate), Active)];
      } else {
        handlers := handlers[c := Handler(Some(candidate), Negotiating)];
      }
    }

    /** The recipient loop of a PRIVATE: `println(line)` on the writer of each registered recipient, in list order. */
    method PrintlnEach(recipients: seq<string>, line: string)
      requires Valid()
      modifies this`wire
      ensures Valid()
      ensures wire == DeliverEach(old(wire), clientWriters, recipients, line)
    {
      for i := 0 to |recipients|
        invariant wire == DeliverEach(old(wire), clientWriters, recipients[..i], line)
      {
        assert recipients[..i + 1][..i] == recipients[..i];
        var r := recipients[i];
        if r in clientWriters {
          var w := clientWriters[r];
          wire := wire[w := wire[w] + [line]];
        }
      }
      assert recipients[..|recipients|] == recipients;
    }

    /**
     * One pass of the negotiation loop after a line was read: the line becomes
     * `name`; a free name is admitted, acknowledged and announced with a
     * USERLIST to everybody, a taken one is answered with another SUBMITNAME.
     */
    method SubmitName(c: Conn, candidate: string) returns (order: seq<string>)
      requires Valid() && c in handlers && handlers[c].phase == Negotiating
      modifies this`names, this`clientWriters, this`wire, this`handlers
      ensures Valid()
      ensures handlers == old(handlers)[c := Handler(Some(candidate), if candidate in old(names) then Negotiating else Active)]
      ensures candidate !in old(names) ==>
        && names == old(names) + {candidate}
        && clientWriters == old(clientWriters)[candidate := c]
        && IsEnumeration(order, names)
        && wire == Deliver(old(wire)[c := old(wire)[c] + [NAME_ACCEPTED]], clientWriters.Values, UserListLine(order))
      ensures candidate in old(names) ==>
        && names == old(names) && clientWriters == old(clientWriters)
        && wire == old(wire)[c := old(wire)[c] + [SUBMIT_NAME]]
      ensures Extends(old(wire), wire)
    {
      var accepted := Admit(c, candidate);
      if accepted {
        order := Welcome(c);
      } else {
        wire := wire[c := wire[c] + [SUBMIT_NAME]];
        order := [];
      }
    }

    /** An admitted client is sent NAME_ACCEPTED, then everybody gets a USERLIST. */
    method Welcome(c: Conn) returns (order: seq<string>)
      requires Valid() && c in wire
      modifies this`wire
      ensures Valid()
      ensures IsEnumeration(order, names)
      ensures wire == Deliver(old(wire)[c := old(wire)[c] + [NAME_ACCEPTED]], clientWriters.Values, UserListLine(order))
      ensures Extends(old(wire), wire)
    {
      wire := wire[c := wire[c] + [NAME_ACCEPTED]];
      ghost var prompted := wire;
      order := BroadcastUserList();
      DeliverExtends(prompted, clientWriters.Values, UserListLine(order));
      ExtendsTransitive(old(wire), prompted, wire);
    }

    /** One line read from an admitted client: BROADCAST and PRIVATE are routed, anything else ignored. */
    method Dispatch(c: Conn, input: string)
      requires Valid() && c in handlers && handlers[c].phase == Active
      modifies this`wire
      ensures Valid()
      ensures
        var sender := handlers[c].name.value;
        match ParseCommand(input)
        case Broadcast(text) => wire == Deliver(old(wire), clientWriters.Values, MessageLine(sender, text))
        case Private(data) =>
          (ParsePrivate(data).None? ==> wire == old(wire)) &&
          (ParsePrivate(data).Some? ==>
             wire == DeliverEach(old(wire), clientWriters, ParsePrivate(data).value.0,
                                 PrivateLine(sender, ParsePrivate(data).value.1)))
        case Ignored => wire == old(wire)
      ensures Extends(old(wire), wire)
    {
      var sender := handlers[c].name.value;
      match ParseCommand(input)
      case Broadcast(text) =>
        BroadcastMessage(sender, text);
        DeliverExtends(old(wire), clientWriters.Values, MessageLine(sender, text));
      case Private(data) =>
        HandlePrivateMessage(sender, data);
        if ParsePrivate(data).Some? {
          DeliverEachExtends(old(wire), clientWriters, ParsePrivate(data).value.0,
                             PrivateLine(sender, ParsePrivate(data).value.1));
        }
      case Ignored =>
    }

    /**
     * The `finally` of `run`: a non-null `name` is removed from `names` and
     * `clientWriters`, and the remaining clients are told of the departure and
     * sent a fresh USERLIST. The `name` is taken as it stands, even when it is
     * a candidate that was refused.
     */
    method Cleanup(c: Conn) returns (order: seq<string>)
      requires Valid() && c in handlers && handlers[c].phase != Closed
      modifies this`names, this`clientWriters, this`wire, this`handlers
      ensures Valid()
      ensures handlers == old(handlers)[c := old(handlers)[c].(phase := Closed)]
      ensures c !in clientWriters.Values && wire[c] == old(wire)[c]
      ensures old(handlers)[c].name.None? ==>
        names == old(names) && clientWriters == old(clientWriters) && wire == old(wire)
      ensures old(handlers)[c].name.Some? ==>
        var n := old(handlers)[c].name.value;
        && names == old(names) - {n}
        && clientWriters == old(clientWriters) - {n}
        && IsEnumeration(order, names)
        && wire == Deliver(Deliver(old(wire), clientWriters.Values, MessageLine(SERVER_SENDER, LeftText(n))),
                           clientWriters.Values, UserListLine(order))
      ensures Extends(old(wire), wire)
    {
      var h := handlers[c];
      OwnedWritersAreInjective(clientWriters, handlers);
      handlers := handlers[c := h.(phase := Closed)];
      order := [];
      if h.name.Some? {
        var n := h.name.value;
        names := names - {n};
        clientWriters := clientWriters - {n};
        order := Farewell(n);
      }
    }

    /** The remaining clients are told that `n` has left and sent a fresh USERLIST. */
    method Farewell(n: string) returns (order: seq<string>)
      requires Valid()
      modifies this`wire
      ensures Valid()
      ensures IsEnumeration(order, names)
      ensures wire == Deliver(Deliver(old(wire), clientWriters.Values, MessageLine(SERVER_SENDER, LeftText(n))),
                              clientWriters.Values, UserListLine(order))
      ensures Extends(old(wire), wire)
    {
      BroadcastMessage(SERVER_SENDER, LeftText(n));
      DeliverExtends(old(wire), clientWriters.Values, MessageLine(SERVER_SENDER, LeftText(n)));
      ghost var announced := wire;
      order := BroadcastUserList();
      DeliverExtends(announced, clientWriters.Values, UserListLine(order));
      ExtendsTransitive(old(wire), announced, wire);
    }

    /** `readLine` returned null before a name was accepted: null is assigned to `name`. */
    method EndDuringNegotiation(c: Conn)
      requires Valid() && c in handlers && handlers[c].phase == Negotiating
      modifies this`handlers
      ensures Valid()
      ensures handlers == old(handlers)[c := Handler(None, Negotiating)]
    {
      handlers := handlers[c := Handler(None, Negotiating)];
    }

    /** One step of a Handler's `run`: the next `in.readLine()` result is processed. */
    method Receive(c: Conn, input: Input) returns (order: seq<string>)
      requires Valid() && c in handlers && handlers[c].phase != Closed
      modifies this`names, this`clientWriters, this`wire, this`handlers
      ensures Valid()
      ensures Extends(old(wire), wire)
      ensures c in handlers && handlers == old(handlers)[c := handlers[c]]
      ensures handlers[c].phase == Closed <==> !input.Line?
      ensures old(handlers)[c].phase == Active ==> handlers[c].name == old(handlers)[c].name
      ensures old(handlers)[c].phase == Active && input.Line? ==>
        names == old(names) && clientWriters == old(clientWriters)
    {
      var h := handlers[c];
      match input
      case Line(s) =>
        if h.phase == Negotiating {
          order := SubmitName(c, s);
          Replaced(old(handlers), handlers, c, Handler(Some(s), if s in old(names) then Negotiating else Active));
        } else {
          Dispatch(c, s);
          Replaced(old(handlers), handlers, c, h);
          order := [];
        }
      case EndOfStream =>
        if h.phase == Negotiating {
          EndDuringNegotiation(c);
        }
        Replaced(old(handlers), handlers, c, handlers[c]);
        ghost var was := handlers;
        order := Cleanup(c);
        Replaced(was, handlers, c, was[c].(phase := Closed));
        ReplacedTwice(old(handlers), was, handlers, c);
      case IOError =>
        order := Cleanup(c);
        Replaced(old(handlers), handlers, c, h.(phase := Closed));
    }

    /**
     * A Handler's `run` over the lines its client sends, until end of stream
     * or an I/O error; returns how many inputs were read.
     */
    method Run(c: Conn, inputs: seq<Input>) returns (consumed: nat)
      requires Valid() && c in handlers && handlers[c].phase != Closed
      modifies this`names, this`clientWriters, this`wire, this`handlers
      ensures Valid() && c in handlers
      ensures consumed <= |inputs|
      ensures forall k :: 0 <= k < consumed - 1 ==> inputs[k].Line?
      ensures handlers[c].phase == Closed <==> consumed > 0 && !inputs[consumed - 1].Line?
      ensures handlers[c].phase != Closed ==> consumed == |inputs|
      ensures Extends(old(wire), wire)
      ensures handlers == old(handlers)[c := handlers[c]]
    {
      consumed := 0;
      while consumed < |inputs| && (consumed == 0 || inputs[consumed - 1].Line?)
        invariant Valid() && c in handlers
        invariant consumed <= |inputs|
        invariant forall k :: 0 <= k < consumed - 1 ==> inputs[k].Line?
        invariant handlers[c].phase == Closed <==> consumed > 0 && !inputs[consumed - 1].Line?
        invariant Extends(old(wire), wire)
        invariant handlers == old(handlers)[c := handlers[c]]
      {
        assert forall k :: 0 <= k < consumed ==> inputs[k].Line?;
        ghost var before, was := wire, handlers;
        var _ := Receive(c, inputs[consumed]);
        ExtendsTransitive(old(wire), before, wire);
        ReplacedTwice(old(handlers), was, handlers, c);
        consumed := consumed + 1;
      }
    }
  }
}

=== FILE: wrappers.dfy ===
/** Optional values: Java's nullable references (a `String` that may be `null`). */
module Wrappers {

  datatype Option<+T> = None | Some(value: T)

}
